=== FILE: README.md ===
# Space Odyssey: the game-state rules in Dafny

Space Odyssey is a small raylib arcade game. A ship turns and thrusts in an 800x600 window and fires bullets. Asteroids spawn off-screen and drift in. A bullet that hits an asteroid scores a point. An asteroid that hits the ship restarts the game. A menu, an options screen and a pause key decide when the simulation runs.

This project models the discrete rules of that loop, in two versions:

- **`Game` in `src/game.hpp`**: the refactored class. Module `Arcade` models it, using `Entities`, `Collisions`, `Seqs` and `Geometry`.
- **The free functions in `src/main.cpp`**: the earlier prototype. Module `Prototype` models it.

Each version's state is an immutable record. Each per-frame `update()` is a pure function from one record to the next. Everything the program reads from raylib during a frame becomes a per-frame input:

- key presses;
- `GetTime()`, taken as one value per frame;
- the frame time;
- the random draws (`GetRandomValue`, `rand() % 2`);
- the raw `Vector2Angle` result;
- whether a click landed on each menu label.

Trigonometry, `Vector2Normalize` and `CheckCollisionCircles` have no visible body. They travel in an `Entities.Physics` record and stay uninterpreted. The arithmetic around them is modelled exactly:

- the collision circles (asteroid centre, radius `size.x / 2.5`; `size.x / 4` and 16 in the prototype);
- `position + heading * speed * dt`;
- the turn rate.

Positions, times and thresholds are `real`.

### The bullet/asteroid walk

The bullet/asteroid phase of `Game::update_collisions` (game.hpp:155-169) is modelled literally as two mutually recursive functions, `Collisions.OuterLoop` and `Collisions.InnerLoop`. They walk the two iterator positions i and j.

A hit erases bullet j and asteroid i, and both indices stay where they are. The inner loop then tests the next asteroid, but only against the bullets from j on. The outer `++it1` then skips that asteroid.

If the erased asteroid was the last one, `it1 == end()`. It is then either dereferenced (line 157) or incremented (line 168). Both are undefined behaviour. The walk returns `Undefined` there, and `Arcade.Update` returns the frame outcome `UndefinedBehaviour`.

The model does not claim that every colliding pair is removed. `Collisions.SkippedPairSurvives` shows a colliding pair that survives.

### Behaviour worth knowing

The model follows the code in each of these places:

- **Angle remap.** The remap yields [-360, 360], not a 0-360 range.
- **Ammo counter.** It ranges over [1, 5], not [0, max]. The shot that empties the clip reloads it at once and starts the cooldown.
- **Pause and mode.** Simulation is gated only by the pause flag; the mode is never consulted. P can unpause the game in the menu or the options screen, and the simulation then runs there.
- **Spawning in the class version.** Asteroids spawn whatever the pause flag and the mode are.
- **Bullet/asteroid hits.** They are not "all resolved"; see above.
- **Spawn coordinates.** The spawn x coordinate is computed from the window height, not its width (game.hpp:98): it is -size or 600 + size + 50, so it can fall inside [0, 800].
- **Prototype player test.** It uses radius `size.x / 4` at the asteroid's corner and radius 16 at the player, not `size / 2.5`.

## Model

| member | source | states |
|---|---|---|
| `Geometry.RemapAngle` | src/game.hpp:106-107 | The rotation of a new asteroid is always within [-360, 360]. A raw angle in [-1, 1] is scaled by 360. Below -1 it clamps to 360. Between 1 and 2 it is 360 - 360 * raw, which is negative. From 2 on it clamps to -360. |
| `Geometry.OutOfWindow` | src/game.hpp:126-128 | A point is inside the window exactly when 0 ≤ x ≤ 800 and 0 ≤ y ≤ 600, so a point on the border counts as inside. |
| `Seqs.EraseWalk` | src/game.hpp:144-150 | The erase-while-iterating loop, run from any position i, leaves the prefix before i alone. From i on, it keeps exactly the elements that pass the test, in order, like the reference filter `Keep`. |
| `Seqs.Prune` | src/game.hpp:143-150 | The whole pruning loop equals the reference filter: the surviving bullets are exactly the originals inside the window, in order. |
| `Seqs.KeepComplete` | src/game.hpp:144-150 | No bullet inside the window is lost by the filter. Each one survives as many times as it occurred. Together with `Keep`'s own contract (everything kept passes the test and comes from the input), the filter keeps exactly the passing elements. |
| `Entities.Drift` | src/entity.hpp:42-47 | Moving a body changes only its position: size, rotation and speed are kept. With dt = 0 the body does not move. |
| `Entities.DriftAll` | src/game.hpp:201-210 | Updating every body keeps the count and each body's size, rotation and speed. With dt = 0 nothing moves. |
| `Entities.PlayerStep` | src/entity.hpp:105-130 | The player turns by turnRate * dt for right, turns back for left, and does not turn when both or neither are held. With dt = 0 it neither turns nor moves. |
| `Entities.AsteroidHitsPlayer` | src/entity.hpp:55-57 | The asteroid/player test is the asteroid/body test applied to a 32x32 body at the player's position: there is one rule, using the other entity's `size.x / 2.5`, and the player is tested like any other body. |
| `Entities.HitUsesPositionAndWidth` | src/entity.hpp:55-57 | The asteroid/body test reads only the other body's position and width. Two bodies that agree on those collide with the same asteroids, whatever their height, rotation and speed. |
| `Collisions.OuterLoop` | src/game.hpp:155-169 | At the outer loop test: a defined result removed exactly one asteroid and one bullet per hit and added nothing. The last asteroid survives. |
| `Collisions.InnerLoop` | src/game.hpp:156-167 | At the inner loop test: a defined result implies the asteroid iterator was not at end(). It has the same accounting and last-asteroid facts as the outer loop. |
| `Collisions.PairPass` | src/game.hpp:155-169 | The bullet/asteroid phase as written. When defined, score gain = asteroids removed = bullets removed, no element is added, and the last asteroid is never destroyed. |
| `Collisions.OuterNoHits` | src/game.hpp:155-169 | With no colliding pair, the walk from any asteroid position ends defined, with nothing changed. |
| `Collisions.InnerNoHits` | src/game.hpp:156-167 | With no colliding pair, the inner loop from any bullet position ends defined, with nothing changed. |
| `Collisions.PairPassNoHits` | src/game.hpp:155-169 | With no colliding pair, the whole phase is defined and changes nothing. |
| `Collisions.LastAsteroid` | src/game.hpp:157-168 | Once the walk stands on the last asteroid, the result is undefined exactly when that asteroid collides with a bullet at or after j. Otherwise the walk ends with nothing more removed. |
| `Collisions.SingleHitIsUndefined` | src/game.hpp:155-169 | One asteroid that collides with one bullet makes the phase undefined. |
| `Collisions.SkippedPairSurvives` | src/game.hpp:155-169 | A colliding asteroid/bullet pair can survive a defined pass. |
| `Collisions.ResolveHits` | src/game.hpp:155-169 | The erase-safe pass (corrected member): always defined, with the same accounting. Surviving bullets come from the input, and no surviving asteroid collides with a surviving bullet. |
| `Collisions.SingleHitIsResolved` | src/game.hpp:155-169 | On the input that breaks the pass as written, the erase-safe pass removes both and scores one point. |
| `Arcade.Initial` | src/game.hpp:23-58 | The starting state: menu, unpaused, sound on, empty field, score 0, a full clip of 5. The spawn threshold is 0.6 and both timestamps are 0. The player is at (400, 300) with rotation 0. |
| `Arcade.MakeBullet` | src/game.hpp:74-91 | A shot while paused or inside the 0.5 s cooldown changes nothing. An accepted shot appends exactly one bullet at the player's position with rotation - 90. It spends a round, or on the last round reloads to 5 and stamps the reload time. Nothing else changes, and ammo stays in [1, 5]. |
| `Arcade.ClipOfFive` | src/game.hpp:74-91 | Five shots at one instant are all accepted and end with a full clip stamped now. Any later attempt is refused until 0.5 s have passed, and accepted after that. |
| `Arcade.MakeAsteroid` | src/game.hpp:93-111 | Appends exactly one asteroid, leaving the rest alone. Its size s is in [32, 200]. Each coordinate is -s on the low side of its coin flip and 650 + s on the other, so the spawn point is always outside the window vertically. Its rotation is the remapped raw angle, in [-360, 360], and its speed is 100. |
| `Arcade.SpawnCoordinate` | src/game.hpp:98-101 | A spawn coordinate is -size on the low side and 650 + size on the other. For a positive size it is negative exactly on the low side and never within [0, 600]. |
| `Arcade.SpawnXMayBeInside` | src/game.hpp:98 | Because x uses the window height, a spawn x coordinate can lie inside [0, 800]. |
| `Arcade.Restart` | src/game.hpp:117-124 | Both vectors empty, score 0, ammo 5, spawn threshold 0.6, player at (400, 300). Mode, pause, sound, player rotation and both timestamps are unchanged. |
| `Arcade.StruckFrom` | src/game.hpp:133-140 | The range-for that returns at the first asteroid on the player, walked from index i: it finds a hit exactly when some asteroid from i on collides with the player. |
| `Arcade.PlayerStruck` | src/game.hpp:133-140 | The whole early-return walk, started at the first asteroid: the player is struck exactly when some asteroid's circle meets the player's, so an empty field never strikes it. |
| `Arcade.PruneAndPair` | src/game.hpp:143-169 | Pruning then pairing: when defined, every bullet left is inside the window, and the state is `Paired` with the filtered bullets. That means each point scored removed one asteroid and one surviving bullet, nothing was added, the last asteroid remains and nothing else changed. |
| `Arcade.UpdateCollisions` | src/game.hpp:130-170 | An asteroid on the player makes the pass exactly a restart. Otherwise, with no bullets, nothing changes; with bullets, the result is prune-then-pair. Undefined behaviour needs both vectors non-empty. After a defined pass no bullet is outside the window, and no asteroid or bullet was added. Mode, pause, sound, timestamps and player rotation are kept. Ammo stays in range. |
| `Arcade.PressPause` | src/game.hpp:173-175 | P toggles the pause flag in every mode and changes nothing else. |
| `Arcade.PressEscape` | src/game.hpp:177-185 | Escape maps GAME to MENU (paused) and MENU to GAME (unpaused), and leaves OPTIONS unchanged. |
| `Arcade.HandleKeys` | src/game.hpp:173-185 | P then Escape: outside GAME and MENU, or without Escape, only the pause flag toggles on P. Escape in GAME goes to MENU paused, and in MENU goes to GAME unpaused. Nothing but mode and pause changes. |
| `Arcade.EscapeTwice` | src/game.hpp:177-185 | Escape twice from the game returns to the game, unpaused, with nothing else changed. |
| `Arcade.SpawnStep` | src/game.hpp:191-194 | When now - last spawn is at least the threshold, exactly one asteroid is appended outside the window and the stamp becomes now, whatever the pause flag and mode. Otherwise nothing changes. |
| `Arcade.Difficulty` | src/game.hpp:196-198 | The threshold becomes 0.5 - score/200 exactly when the score is a positive multiple of 10. Otherwise the state is unchanged. |
| `Arcade.DifficultyExamples` | src/game.hpp:196-198 | Score 10 gives 0.45, and from score 100 on the unclamped threshold is no longer positive. |
| `Arcade.Advance` | src/game.hpp:201-214 | The unpaused step. If a moved asteroid is on the player, the result is a restart. Otherwise each point scored removed one asteroid, and the clip and threshold stand. The remaining bodies are drawn from the moved ones, no bullet is outside the window, and the player turned. With no bullets and no hit, the result is exactly the moved asteroids plus the player's step. |
| `Arcade.Collide` | src/game.hpp:211-213 | The guarded call: with both vectors empty nothing happens; otherwise it is the collision pass. Undefined behaviour needs both vectors non-empty. A defined result adds no asteroid or bullet, leaves no bullet outside the window, and keeps mode, pause, sound, timestamps, player rotation and the ammo range. The score restarts from 0 or does not decrease. |
| `Arcade.Simulate` | src/game.hpp:200-215 | Paused: nothing changes. Unpaused, the collision pass runs on the moved bodies. If a moved asteroid is on the player, the frame is a restart: empty field, score 0, full clip, threshold 0.6. Otherwise each point scored removed one asteroid, ammo and threshold are kept, the bodies that remain are drawn from the moved ones, no bullet is outside the window, and the player turned. With no bullets and no hit on the player, the result is exactly the moved asteroids plus the player's step. Mode, pause, sound and timestamps are kept. Ammo stays in range. |
| `Arcade.UpdateUi` | src/game.hpp:227-256 | A menu click tries play (GAME, unpaused), then options (OPTIONS, paused), then exit, which is the only way to Exited. A menu click on no label does nothing. An options click only toggles the sound, iff it hits the sound label. A game click does nothing. |
| `Arcade.Prepare` | src/game.hpp:172-198 | The steps before the simulation. Pause and mode are those of the key handling. Space appends exactly the shot `make_bullet` makes when unpaused and out of cooldown; otherwise bullets, ammo and reload stamp stand. The spawn stamp becomes now exactly when a spawn was due, and exactly one asteroid is then appended after the old ones. The threshold becomes 0.5 - score/200 at positive multiples of 10 and stays otherwise. Score and player stand. Ammo stays in range. |
| `Arcade.Update` | src/game.hpp:172-217 | One frame keeps ammo in [1, 5] and never leaves OPTIONS. It exits only on a click on exit in the menu, and is undefined only when unpaused. The spawn stamp becomes now exactly when a spawn was due. Without Escape and without a click, P toggles the pause flag and the mode stays. The score restarts from 0 or does not decrease. |
| `Arcade.PausedFrame` | src/game.hpp:172-217 | A frame paused after key handling is never undefined. Bullets, player and score are unchanged. Exactly one asteroid is appended when a spawn is due, and none otherwise, and the difficulty rule still sets the threshold, so spawning and difficulty ignore the pause flag. |
| `Arcade.StillFrame` | src/game.hpp:172-217 | With dt = 0, no keys, no click, no spawn due, no bullets, no hit on the player and a score that is 0 or not a multiple of 10, an unpaused frame leaves the state exactly as it was. |
| `Prototype.Initial` | src/main.cpp:14-27 | Initial globals: score 0, unpaused, empty field, player at (400, 300) with rotation 0, spawn stamp 0. |
| `Prototype.StartAgain` | src/main.cpp:203-208 | Both vectors empty, score 0, player at (400, 300). Player rotation, pause and spawn stamp are unchanged. |
| `Prototype.MakeBullet` | src/main.cpp:100-104 | Always appends exactly one bullet at the player's position with rotation - 90 and speed 600. Nothing else changes. |
| `Prototype.MakeAsteroid` | src/main.cpp:106-123 | Appends exactly one asteroid at the drawn point. Its y lies in [-s, 0] or [600, 600 + s]. It is square, with size s in [32, 200], rotation equal to the remapped raw angle (in [-360, 360]) and speed 100. Nothing else changes. |
| `Prototype.UpdatePlayer` | src/main.cpp:125-149 | Paused or dt = 0: nothing changes. Otherwise only the player changes. It turns by 200 * dt for right, back for left, and not at all when both or neither are held. |
| `Prototype.MoveBullet` | src/main.cpp:159-164 | Only the position changes; with dt = 0 nothing does. |
| `Prototype.MoveAsteroid` | src/main.cpp:195-200 | Only the position changes; with dt = 0 nothing does. |
| `Prototype.UpdateBullets` | src/main.cpp:151-166 | Paused: nothing changes. Otherwise the bullet count grows by one exactly when Space was pressed. Every old bullet keeps its rotation and speed. The new bullet has rotation - 90 and speed 600. With dt = 0 the result is exactly the shot or nothing. Only the bullets change. |
| `Prototype.UpdateAsteroids` | src/main.cpp:187-201 | Paused: nothing changes. Otherwise, with now - last spawn ≥ 0.5, one asteroid is added and the stamp becomes now; below that the count and stamp are unchanged. Every old asteroid keeps its size, rotation and speed. The new one has speed 100 and the remapped angle. With dt = 0 the result is exactly the spawn or nothing. |
| `Prototype.UpdateCollisions` | src/main.cpp:168-185 | A hit on the player is exactly start_again, before any pruning. Otherwise the bullets become exactly the in-window originals in order and nothing else changes. No bullet outside the window survives. |
| `Prototype.HitsFrom` | src/main.cpp:169-175 | The prototype's early-return player loop from index i (radius size.x / 4 at the asteroid's corner, 16 at the player): it finds a hit exactly when some asteroid from i on collides with the player. |
| `Prototype.Update` | src/main.cpp:210-218 | P toggles pause. A world with score 0 keeps score 0. No bullet is outside the window after a frame. |
| `Prototype.PausedFrame` | src/main.cpp:210-218 | While paused nothing moves, fires or spawns, but a hit on the player still starts again and out-of-window bullets are still erased. |
| `Prototype.UnpausedSpawn` | src/main.cpp:187-193 | Unpaused with a spawn due, the stamp becomes now. The frame ends either with an empty field (start again) or with exactly one more asteroid. |

## Left out

- Rendering is left out: all `draw`/`debug_draw` functions, `Label::draw` and the label texts and colours set in `update_ui`. They are presentation only.
- Asset loading and unloading, window and audio setup, and the main loops are left out. They are I/O. `game_exit()` is modelled only as the terminal frame outcome `Exited`.
- Sound playback (`make_sound`) is a foreign side effect and is not recorded.
- Trigonometric kinematics are left out: cos/sin, `Vector2Normalize` and `CheckCollisionCircles` are uninterpreted functions in `Entities.Physics`. `Label::is_colliding` is a per-frame boolean input per label.
- Float rounding is left out: all coordinates, times and thresholds are exact reals.
- Score overflow is not modelled: the score is a `nat` (a C++ `int` would need 2^31 hits to overflow).
- The clock is read once per frame: `GetTime()` is called several times per frame in the source, and the model uses one `now`.
- The random interior point of `make_asteroid` is not modelled; only the resulting raw `Vector2Angle` value is an input.
- Prototype.MakeAsteroid does not constrain the spawn x coordinate. It is an input, because main.cpp:110 draws it from `GetRandomValue(800, 600 + size)`, whose bounds are reversed for every size below 200, and raylib's handling of that is not visible here. The y coordinate is constrained to [-size, 0] or [600, 600 + size], the ordered ranges of main.cpp:113.
- The debug output (`std::cout` at game.hpp:132) and the unused `debug` flag are left out.
- `Entity::rotate` and `operator==` are left out; the core never calls them. `Entity::set_position`, called by `restart()` at game.hpp:123, is modelled inline by `Arcade.Restart`'s record update of the player's position.
- Collisions.PairPass characterises exactly when the walk is undefined only once it stands on the last asteroid (`Collisions.LastAsteroid`). Earlier, it states only the accounting that holds when the walk is defined.
- Arcade.Update keeps the bullet/asteroid walk as written, with its undefined outcome. This is because the model describes the program as it behaves. The erase-safe pass `Collisions.ResolveHits` is stated and proved beside it and is not used by the frame step.

## Findings

| source | as written | input that shows it | evidently intended | confidence | as-written member | corrected member |
|---|---|---|---|---|---|---|
| src/game.hpp:155-169 | After `asteroids.erase(it1)` the loop keeps `it1` and still runs `++it1`. Erasing the last asteroid leaves `it1 == end()`, which is then dereferenced at line 157 or incremented at line 168. Surviving asteroids are also skipped. | One asteroid and one bullet whose collision circles overlap, e.g. an asteroid of size 50 at (100, 100), whose circle has centre (125, 125) and radius 20, and a bullet at (120, 120), whose circle has radius 4, with the player far away at (400, 300). | Both are removed and the score goes up by 1. Every asteroid is tested against the bullets still alive, so no colliding pair survives. | high; not executed | `Collisions.PairPass` with `Collisions.SingleHitIsUndefined` | `Collisions.ResolveHits` with `Collisions.SingleHitIsResolved` |

=== FILE: arcade.dfy ===
/** The refactored game class (game.hpp): its state as one immutable record
    and its per-frame update() as a pure step from one record to the next.

    Everything the class reads from raylib during a frame is an input: the
    keys pressed, the clock GetTime() (one value per frame), the frame time,
    the random draws of make_asteroid, the raw result of Vector2Angle, and
    whether the mouse was clicked on each label. Sound playback is not
    modelled. */
module Arcade {
  import opened Geometry
  import opened Seqs
  import opened Entities
  import Collisions

  datatype Mode = Menu | Game | Options

  /** The fields of class Game that the simulation reads or writes. */
  datatype GameState = GameState(
    score: nat,
    mode: Mode,
    pause: bool,
    soundOn: bool,
    player: Player,
    asteroids: seq<Asteroid>,
    bullets: seq<Bullet>,
    bulletsAvailable: int,     // bullet_avaible
    lastReload: real,          // time_since_last_reload: the time of the last reload
    lastSpawn: real,           // time_since_last_asteroid: the time of the last spawn
    spawnThreshold: real)      // asteroid_appear_threshold

  const BulletMax: int := 5
  const ReloadThreshold: real := 0.5
  const InitialSpawnThreshold: real := 0.6
  /** The largest asteroid: static_cast<int>(screen width / 4). */
  const MaxAsteroidSize: int := 200
  const MinAsteroidSize: int := 32

  /** The ammo counter always holds between one and bullet_max shots. */
  ghost predicate Inv(g: GameState) {
    1 <= g.bulletsAvailable <= BulletMax
  }

  /** The state after the constructor and load(): in the menu, unpaused,
      sound on, the player at the centre of the window, a full clip. */
  function Initial(): (g: GameState)
    ensures Inv(g) && g.mode == Menu && !g.pause && g.soundOn
    ensures g.asteroids == [] && g.bullets == [] && g.score == 0
    ensures g.player == Player(Vec2(400.0, 300.0), 0.0)
    ensures g.bulletsAvailable == BulletMax && g.spawnThreshold == InitialSpawnThreshold
    ensures g.lastReload == 0.0 && g.lastSpawn == 0.0
  {
    GameState(0, Menu, false, true, Player(Scale(Screen, 0.5), 0.0), [], [],
              BulletMax, 0.0, 0.0, InitialSpawnThreshold)
  }

  /** One call of make_bullet at time now. A shot is refused while paused or
      while the reload cooldown runs; an accepted shot spends one round,
      reloads the clip and starts the cooldown when the clip runs dry, and
      appends one bullet at the player's position pointing 90 degrees
      anticlockwise of the player's rotation. */
  function MakeBullet(g: GameState, now: real): (r: GameState)
    ensures g.pause || now - g.lastReload < ReloadThreshold ==> r == g
    ensures !g.pause && now - g.lastReload >= ReloadThreshold ==>
      && r.bullets == g.bullets + [NewBullet(g.player.position, g.player.rotation - 90.0)]
      && (g.bulletsAvailable <= 1 ==> r.bulletsAvailable == BulletMax && r.lastReload == now)
      && (g.bulletsAvailable > 1 ==> r.bulletsAvailable == g.bulletsAvailable - 1 && r.lastReload == g.lastReload)
    ensures r == g.(bullets := r.bullets, bulletsAvailable := r.bulletsAvailable, lastReload := r.lastReload)
    ensures Inv(g) ==> Inv(r)
  {
    if g.pause then g
    else if now - g.lastReload < ReloadThreshold then g
    else
      var left := g.bulletsAvailable - 1;
      var reloaded := if left <= 0 then g.(bulletsAvailable := BulletMax, lastReload := now)
                      else g.(bulletsAvailable := left);
      reloaded.(bullets := reloaded.bullets + [NewBullet(g.player.position, g.player.rotation - 90.0)])
  }

  /** A full clip fired at one instant: five shots are accepted, the fifth
      reloads the clip and stamps the reload time, and every further shot is
      refused until the cooldown has run out. */
  lemma ClipOfFive(g: GameState, now: real, later: real)
    requires !g.pause && g.bulletsAvailable == BulletMax && now - g.lastReload >= ReloadThreshold
    ensures var g5 := MakeBullet(MakeBullet(MakeBullet(MakeBullet(MakeBullet(g, now), now), now), now), now);
      && |g5.bullets| == |g.bullets| + 5
      && g5.bulletsAvailable == BulletMax && g5.lastReload == now
      && (later - now < ReloadThreshold ==> MakeBullet(g5, later) == g5)
      && (later - now >= ReloadThreshold ==> |MakeBullet(g5, later).bullets| == |g5.bullets| + 1)
  {
  }

  /** What make_asteroid draws from the random generators: the size
      (GetRandomValue), the two coin flips rand() % 2 == 0 for the x and y
      sides, and the raw Vector2Angle result towards a random interior point. */
  datatype SpawnDraw = SpawnDraw(size: int, lowX: bool, lowY: bool, rawAngle: real)

  /** GetRandomValue(32, screen width / 4) stays within its bounds. */
  predicate ValidDraw(d: SpawnDraw) {
    MinAsteroidSize <= d.size <= MaxAsteroidSize
  }

  /** One spawn coordinate: -size, or the window HEIGHT + size + 50. The same
      height is used for x and for y; the float result is cast to int, which
      is exact since every term is a whole number. */
  function SpawnCoordinate(size: int, low: bool): (c: int)
    ensures low ==> c == -size
    ensures !low ==> c == 650 + size
    ensures size > 0 ==> (c < 0 <==> low) && (c < 0 || c > 600)
  {
    if low then -size else 600 + size + 50
  }

  /** make_asteroid: appends one asteroid of size s x s with s in [32, 200],
      whose spawn point lies above or below the window (its x coordinate may
      still fall inside [0, 800]), heading in [-360, 360] degrees, speed 100. */
  function MakeAsteroid(g: GameState, d: SpawnDraw): (r: GameState)
    requires ValidDraw(d)
    ensures |r.asteroids| == |g.asteroids| + 1 && r.asteroids[..|g.asteroids|] == g.asteroids
    ensures var a := r.asteroids[|g.asteroids|];
      && a.size == Vec2(d.size as real, d.size as real)
      && 32.0 <= a.size.x <= 200.0
      && a.position.x == (if d.lowX then -a.size.x else 650.0 + a.size.x)
      && a.position.y == (if d.lowY then -a.size.y else 650.0 + a.size.y)
      && (a.position.y < 0.0 || a.position.y > Screen.y)
      && a.rotation == RemapAngle(d.rawAngle)
      && a.speed == AsteroidSpeed
    ensures r == g.(asteroids := r.asteroids)
  {
    var s := d.size as real;
    var x := SpawnCoordinate(d.size, d.lowX);
    var y := SpawnCoordinate(d.size, d.lowY);
    var a := NewAsteroid(Vec2(x as real, y as real), Vec2(s, s), RemapAngle(d.rawAngle));
    g.(asteroids := g.asteroids + [a])
  }

  /** Because the x coordinate is computed from the window height, a spawn
      point can lie horizontally inside the window: size 32 on the far side
      gives x = 682. */
  lemma SpawnXMayBeInside(g: GameState)
    ensures var r := MakeAsteroid(g, SpawnDraw(32, false, true, 0.0));
      0.0 <= r.asteroids[|g.asteroids|].position.x <= Screen.x
  {
  }

  /** restart(): both vectors emptied, score 0, a full clip, the initial
      spawn threshold and the player back at the centre; mode, pause, sound,
      the player's rotation and both timestamps are untouched. */
  function Restart(g: GameState): (r: GameState)
    ensures r.asteroids == [] && r.bullets == [] && r.score == 0
    ensures r.bulletsAvailable == BulletMax && r.spawnThreshold == InitialSpawnThreshold
    ensures r.player.position == Vec2(400.0, 300.0)
    ensures r.mode == g.mode && r.pause == g.pause && r.soundOn == g.soundOn
    ensures r.player.rotation == g.player.rotation
    ensures r.lastReload == g.lastReload && r.lastSpawn == g.lastSpawn
    ensures Inv(r)
  {
    g.(asteroids := [], bullets := [], score := 0, bulletsAvailable := BulletMax,
       spawnThreshold := InitialSpawnThreshold,
       player := g.player.(position := Scale(Screen, 0.5)))
  }

  /** The player test of update_collisions, asteroid by asteroid from index
      i: the walk stops at the first asteroid on the player. It finds one
      exactly when some asteroid from i on collides with the player. */
  function StruckFrom(g: GameState, phys: Physics, i: nat): (r: bool)
    requires i <= |g.asteroids|
    ensures r <==> exists k :: i <= k < |g.asteroids| && AsteroidHitsPlayer(phys, g.asteroids[k], g.player)
    decreases |g.asteroids| - i
  {
    if i == |g.asteroids| then false
    else if AsteroidHitsPlayer(phys, g.asteroids[i], g.player) then true
    else StruckFrom(g, phys, i + 1)
  }

  /** The whole walk from the first asteroid: the player is struck exactly
      when some asteroid collides with it, so never on an empty field. */
  function PlayerStruck(g: GameState, phys: Physics): (r: bool)
    ensures r ==> |g.asteroids| > 0
    ensures forall i :: 0 <= i < |g.asteroids| && AsteroidHitsPlayer(phys, g.asteroids[i], g.player) ==> r
    ensures r ==> exists i :: 0 <= i < |g.asteroids| && AsteroidHitsPlayer(phys, g.asteroids[i], g.player)
  {
    StruckFrom(g, phys, 0)
  }

  /** Whether the player is struck does not depend on the bullets. */
  lemma StruckIgnoresBullets(g: GameState, bullets: seq<Bullet>, phys: Physics)
    ensures PlayerStruck(g.(bullets := bullets), phys) == PlayerStruck(g, phys)
  {
  }

  /** h is g after a defined bullet/asteroid walk over survivors: each point
      scored removed one asteroid and one survivor, nothing was added, the
      last asteroid is still there, and nothing else changed. */
  ghost predicate Paired(g: GameState, survivors: seq<Bullet>, h: GameState) {
    && h.score - g.score == |g.asteroids| - |h.asteroids| == |survivors| - |h.bullets|
    && multiset(h.asteroids) <= multiset(g.asteroids)
    && multiset(h.bullets) <= multiset(survivors)
    && (|g.asteroids| > 0 ==> |h.asteroids| > 0 && h.asteroids[|h.asteroids| - 1] == g.asteroids[|g.asteroids| - 1])
    && h == g.(asteroids := h.asteroids, bullets := h.bullets, score := h.score)
  }

  /** Phases (2) and (3) of update_collisions on a non-empty bullet vector:
      the bullets outside the window are erased in order, then the
      bullet/asteroid walk as written runs on the survivors. When defined,
      every bullet left is inside the window and the state is Paired with the
      filtered bullets. */
  function PruneAndPair(g: GameState, phys: Physics): (r: Collisions.Outcome<GameState>)
    ensures r.Defined? ==> forall b :: b in r.value.bullets ==> BulletInWindow(b)
    ensures r.Defined? ==> Paired(g, Keep(g.bullets, BulletInWindow), r.value)
  {
    var survivors := Prune(g.bullets, BulletInWindow);
    match Collisions.PairPass((a: Asteroid, b: Bullet) => AsteroidHitsBullet(phys, a, b), g.asteroids, survivors)
    case Undefined => Collisions.Undefined
    case Defined(t) =>
      var h := g.(asteroids := t.asteroids, bullets := t.bullets, score := g.score + t.hits);
      TallyPaired(g, survivors, t, h);
      Collisions.Defined(h)
  }

  /** A defined walk's tally, written back into the state, is Paired, and
      its bullets are inside the window. */
  lemma TallyPaired(g: GameState, survivors: seq<Bullet>, t: Collisions.Tally<Asteroid, Bullet>, h: GameState)
    requires survivors == Keep(g.bullets, BulletInWindow)
    requires Collisions.Accounted(g.asteroids, survivors, 0, t)
    requires Collisions.LastKept(g.asteroids, t.asteroids)
    requires h == g.(asteroids := t.asteroids, bullets := t.bullets, score := g.score + t.hits)
    ensures Paired(g, survivors, h)
    ensures forall b :: b in h.bullets ==> BulletInWindow(b)
  {
    SurvivorsInWindow(t.bullets, g.bullets);
  }

  /** Bullets drawn from the pruned vector are all inside the window. */
  lemma SurvivorsInWindow(t: seq<Bullet>, bullets: seq<Bullet>)
    requires multiset(t) <= multiset(Keep(bullets, BulletInWindow))
    ensures forall b :: b in t ==> BulletInWindow(b)
  {
    var survivors := Keep(bullets, BulletInWindow);
    forall b | b in t ensures BulletInWindow(b) {
      assert b in multiset(survivors);
      var k :| 0 <= k < |survivors| && survivors[k] == b;
    }
  }

  /** update_collisions: (1) an asteroid on the player restarts the game and
      ends the pass; (2) with no bullets the pass ends unchanged, otherwise
      the bullets outside the window are erased; (3) the bullet/asteroid walk
      as written, which may be undefined. After a defined pass no bullet is
      outside the window. */
  function UpdateCollisions(g: GameState, phys: Physics): (r: Collisions.Outcome<GameState>)
    ensures PlayerStruck(g, phys) ==> r == Collisions.Defined(Restart(g))
    ensures !PlayerStruck(g, phys) && g.bullets == [] ==> r == Collisions.Defined(g)
    ensures !PlayerStruck(g, phys) && g.bullets != [] ==> r == PruneAndPair(g, phys)
    ensures r.Undefined? ==> !PlayerStruck(g, phys) && |g.asteroids| > 0 && |g.bullets| > 0
    ensures r.Defined? ==> forall b :: b in r.value.bullets ==> BulletInWindow(b)
    ensures r.Defined? ==>
      && r.value.mode == g.mode && r.value.pause == g.pause && r.value.soundOn == g.soundOn
      && r.value.lastReload == g.lastReload && r.value.lastSpawn == g.lastSpawn
      && r.value.player.rotation == g.player.rotation
      && (r.value.score == 0 || r.value.score >= g.score)
    ensures r.Defined? ==>
      multiset(r.value.asteroids) <= multiset(g.asteroids) && multiset(r.value.bullets) <= multiset(g.bullets)
    ensures Inv(g) && r.Defined? ==> Inv(r.value)
  {
    if |g.asteroids| > 0 && PlayerStruck(g, phys) then
      Collisions.Defined(Restart(g))
    else if |g.bullets| == 0 then
      Collisions.Defined(g)
    else
      var r := PruneAndPair(g, phys);
      assert r.Undefined? ==> |g.asteroids| > 0 by {
        if |g.asteroids| == 0 {
          Collisions.PairPassNoHits((a: Asteroid, b: Bullet) => AsteroidHitsBullet(phys, a, b), g.asteroids, Prune(g.bullets, BulletInWindow));
        }
      }
      r
  }

  /** The P key toggles the pause flag in every mode. */
  function PressPause(g: GameState, pressed: bool): (r: GameState)
    ensures r.pause == (g.pause != pressed)
    ensures r == g.(pause := r.pause)
  {
    if pressed then g.(pause := !g.pause) else g
  }

  /** Escape switches between the game (which it leaves paused) and the menu
      (which it leaves unpaused); in the options screen it does nothing. */
  function PressEscape(g: GameState, pressed: bool): (r: GameState)
    ensures !pressed || g.mode == Options ==> r == g
    ensures pressed && g.mode == Game ==> r.mode == Menu && r.pause
    ensures pressed && g.mode == Menu ==> r.mode == Game && !r.pause
    ensures r == g.(mode := r.mode, pause := r.pause)
  {
    if !pressed then g
    else match g.mode
      case Game => g.(mode := Menu, pause := true)
      case Menu => g.(mode := Game, pause := false)
      case Options => g
  }

  /** Escape twice from the game comes back to the game, unpaused, whatever
      the pause flag was before. */
  lemma EscapeTwice(g: GameState)
    requires g.mode == Game
    ensures var r := PressEscape(PressEscape(g, true), true);
      r.mode == Game && !r.pause && r == g.(pause := false)
  {
  }

  /** The spawn cadence: once threshold seconds have passed since the last
      spawn, one asteroid is appended and the spawn time becomes now,
      whatever the mode and the pause flag. */
  function SpawnStep(g: GameState, now: real, d: SpawnDraw): (r: GameState)
    requires ValidDraw(d)
    ensures now - g.lastSpawn >= g.spawnThreshold ==>
      && |r.asteroids| == |g.asteroids| + 1 && r.asteroids[..|g.asteroids|] == g.asteroids
      && OutOfWindow(r.asteroids[|g.asteroids|].position)
      && r.lastSpawn == now
    ensures now - g.lastSpawn < g.spawnThreshold ==> r == g
    ensures r == g.(asteroids := r.asteroids, lastSpawn := r.lastSpawn)
  {
    if now - g.lastSpawn >= g.spawnThreshold then MakeAsteroid(g, d).(lastSpawn := now)
    else g
  }

  /** The difficulty rule: whenever the score is a positive multiple of 10
      the spawn threshold is set to 0.5 - score / 200; no floor is applied. */
  function Difficulty(g: GameState): (r: GameState)
    ensures g.score % 10 == 0 && g.score != 0 ==> r.spawnThreshold == 0.5 - g.score as real / 200.0
    ensures g.score % 10 != 0 || g.score == 0 ==> r == g
    ensures r == g.(spawnThreshold := r.spawnThreshold)
  {
    if g.score % 10 == 0 && g.score != 0 then g.(spawnThreshold := -1.0 / 200.0 * g.score as real + 0.5)
    else g
  }

  /** Score 10 gives a threshold of 0.45, and from score 100 on the threshold
      is no longer positive, so an asteroid spawns every frame. */
  lemma DifficultyExamples(g: GameState)
    ensures g.score == 10 ==> Difficulty(g).spawnThreshold == 0.45
    ensures g.score >= 100 && g.score % 10 == 0 ==> Difficulty(g).spawnThreshold <= 0.0
  {
  }

  /** The collision pass as update() guards it: only when either vector is
      non-empty. */
  function Collide(g: GameState, phys: Physics): (r: Collisions.Outcome<GameState>)
    ensures |g.asteroids| == 0 && |g.bullets| == 0 ==> r == Collisions.Defined(g)
    ensures |g.asteroids| > 0 || |g.bullets| > 0 ==> r == UpdateCollisions(g, phys)
    ensures PlayerStruck(g, phys) ==>
      && r.Defined? && r.value.asteroids == [] && r.value.bullets == [] && r.value.score == 0
      && r.value.bulletsAvailable == BulletMax && r.value.spawnThreshold == InitialSpawnThreshold
    ensures !PlayerStruck(g, phys) && r.Defined? ==>
      && r.value.score - g.score == |g.asteroids| - |r.value.asteroids|
      && r.value.spawnThreshold == g.spawnThreshold && r.value.bulletsAvailable == g.bulletsAvailable
    ensures r.Undefined? ==> |g.asteroids| > 0 && |g.bullets| > 0
    ensures r.Defined? ==> forall b :: b in r.value.bullets ==> BulletInWindow(b)
    ensures r.Defined? ==>
      && r.value.mode == g.mode && r.value.pause == g.pause && r.value.soundOn == g.soundOn
      && r.value.lastReload == g.lastReload && r.value.lastSpawn == g.lastSpawn
      && r.value.player.rotation == g.player.rotation
      && (r.value.score == 0 || r.value.score >= g.score)
    ensures r.Defined? ==>
      multiset(r.value.asteroids) <= multiset(g.asteroids) && multiset(r.value.bullets) <= multiset(g.bullets)
    ensures Inv(g) && r.Defined? ==> Inv(r.value)
  {
    if |g.asteroids| > 0 || |g.bullets| > 0 then UpdateCollisions(g, phys)
    else Collisions.Defined(g)
  }

  /** The unpaused part of update(): every asteroid and bullet moves, the
      guarded collision pass runs on the moved bodies, and the player moves.
      A moved asteroid on the player makes the step a restart; otherwise each
      point scored removed one asteroid and the clip and threshold stand. */
  function Advance(g: GameState, dt: real, keys: Steer, phys: Physics): (r: Collisions.Outcome<GameState>)
    ensures r.Undefined? ==> |g.asteroids| > 0 && |g.bullets| > 0
    ensures r.Defined? ==>
      && r.value.mode == g.mode && r.value.pause == g.pause && r.value.soundOn == g.soundOn
      && r.value.lastReload == g.lastReload && r.value.lastSpawn == g.lastSpawn
      && (r.value.score == 0 || r.value.score >= g.score)
      && (forall b :: b in r.value.bullets ==> BulletInWindow(b))
      && r.value.player.rotation == PlayerStep(g.player, keys, dt, PlayerTurnRate, PlayerSpeed, phys).rotation
      && multiset(r.value.asteroids) <= multiset(DriftAll(g.asteroids, dt, phys))
      && multiset(r.value.bullets) <= multiset(DriftAll(g.bullets, dt, phys))
    ensures g.bullets == [] && !PlayerStruck(g.(asteroids := DriftAll(g.asteroids, dt, phys)), phys) ==>
      r == Collisions.Defined(g.(asteroids := DriftAll(g.asteroids, dt, phys),
                                 player := PlayerStep(g.player, keys, dt, PlayerTurnRate, PlayerSpeed, phys)))
    ensures PlayerStruck(g.(asteroids := DriftAll(g.asteroids, dt, phys)), phys) ==>
      && r.Defined? && r.value.asteroids == [] && r.value.bullets == [] && r.value.score == 0
      && r.value.bulletsAvailable == BulletMax && r.value.spawnThreshold == InitialSpawnThreshold
    ensures !PlayerStruck(g.(asteroids := DriftAll(g.asteroids, dt, phys)), phys) && r.Defined? ==>
      && r.value.score - g.score == |g.asteroids| - |r.value.asteroids|
      && r.value.spawnThreshold == g.spawnThreshold && r.value.bulletsAvailable == g.bulletsAvailable
    ensures Inv(g) && r.Defined? ==> Inv(r.value)
  {
    var drifted := g.(asteroids := DriftAll(g.asteroids, dt, phys));
    var moved := drifted.(bullets := DriftAll(g.bullets, dt, phys));
    StruckIgnoresBullets(drifted, moved.bullets, phys);
    match Collide(moved, phys)
    case Undefined => Collisions.Undefined
    case Defined(h) =>
      Collisions.Defined(h.(player := PlayerStep(h.player, keys, dt, PlayerTurnRate, PlayerSpeed, phys)))
  }

  /** The pause-gated part of update(): paused, nothing happens; unpaused,
      the bodies move, collisions are resolved when either vector is
      non-empty, and the player moves. The mode is not consulted. */
  function Simulate(g: GameState, dt: real, keys: Steer, phys: Physics): (r: Collisions.Outcome<GameState>)
    ensures g.pause ==> r == Collisions.Defined(g)
    ensures r.Undefined? ==> !g.pause && |g.asteroids| > 0 && |g.bullets| > 0
    ensures r.Defined? ==>
      && r.value.mode == g.mode && r.value.pause == g.pause && r.value.soundOn == g.soundOn
      && r.value.lastReload == g.lastReload && r.value.lastSpawn == g.lastSpawn
    ensures r.Defined? ==> r.value.score == 0 || r.value.score >= g.score
    ensures !g.pause && r.Defined? ==> forall b :: b in r.value.bullets ==> BulletInWindow(b)
    ensures !g.pause && r.Defined? ==>
      r.value.player.rotation == PlayerStep(g.player, keys, dt, PlayerTurnRate, PlayerSpeed, phys).rotation
    ensures !g.pause && r.Defined? ==>
      && multiset(r.value.asteroids) <= multiset(DriftAll(g.asteroids, dt, phys))
      && multiset(r.value.bullets) <= multiset(DriftAll(g.bullets, dt, phys))
    ensures !g.pause && g.bullets == [] && !PlayerStruck(g.(asteroids := DriftAll(g.asteroids, dt, phys)), phys) ==>
      r == Collisions.Defined(g.(asteroids := DriftAll(g.asteroids, dt, phys),
                                 player := PlayerStep(g.player, keys, dt, PlayerTurnRate, PlayerSpeed, phys)))
    ensures !g.pause && PlayerStruck(g.(asteroids := DriftAll(g.asteroids, dt, phys)), phys) ==>
      && r.Defined? && r.value.asteroids == [] && r.value.bullets == [] && r.value.score == 0
      && r.value.bulletsAvailable == BulletMax && r.value.spawnThreshold == InitialSpawnThreshold
    ensures !g.pause && !PlayerStruck(g.(asteroids := DriftAll(g.asteroids, dt, phys)), phys) && r.Defined? ==>
      && r.value.score - g.score == |g.asteroids| - |r.value.asteroids|
      && r.value.spawnThreshold == g.spawnThreshold && r.value.bulletsAvailable == g.bulletsAvailable
    ensures Inv(g) && r.Defined? ==> Inv(r.value)
  {
    if g.pause then Collisions.Defined(g) else Advance(g, dt, keys, phys)
  }

  /** Where a left click landed this frame (Label::is_colliding per label). */
  datatype Click = Click(pressed: bool, onPlay: bool, onOptions: bool, onExit: bool, onSound: bool)

  /** The result of one frame: the next state, the process exiting through
      game_exit(), or undefined behaviour in the collision pass. */
  datatype Frame = Running(state: GameState) | Exited | UndefinedBehaviour

  /** The mouse part of update_ui(). In the menu the labels are tried in the
      order play, options, exit; in the options screen a click on the sound
      label toggles the sound and nothing else; in the game a click does
      nothing. */
  function UpdateUi(g: GameState, c: Click): (r: Frame)
    ensures r.Exited? <==> c.pressed && g.mode == Menu && !c.onPlay && !c.onOptions && c.onExit
    ensures !r.UndefinedBehaviour?
    ensures c.pressed && g.mode == Menu && c.onPlay ==> r == Running(g.(mode := Game, pause := false))
    ensures c.pressed && g.mode == Menu && !c.onPlay && c.onOptions ==> r == Running(g.(mode := Options, pause := true))
    ensures g.mode == Options ==> r.Running? && r.state == g.(soundOn := r.state.soundOn)
    ensures g.mode == Options ==> (r.state.soundOn != g.soundOn <==> c.pressed && c.onSound)
    ensures !c.pressed || g.mode == Game ==> r == Running(g)
    ensures c.pressed && g.mode == Menu && !c.onPlay && !c.onOptions && !c.onExit ==> r == Running(g)
    ensures r.Running? ==> r.state == g.(mode := r.state.mode, pause := r.state.pause, soundOn := r.state.soundOn)
  {
    if !c.pressed then Running(g)
    else match g.mode
      case Menu =>
        if c.onPlay then Running(g.(mode := Game, pause := false))
        else if c.onOptions then Running(g.(mode := Options, pause := true))
        else if c.onExit then Exited
        else Running(g)
      case Options =>
        Running(if c.onSound then g.(soundOn := !g.soundOn) else g)
      case Game =>
        Running(g)
  }

  /** Everything update() reads during one frame. */
  datatype Input = Input(
    now: real,          // GetTime()
    dt: real,           // GetFrameTime()
    keyP: bool,
    keyEscape: bool,
    keySpace: bool,
    keys: Steer,
    draw: SpawnDraw,
    click: Click)

  /** The state after the key handling at the top of update(). */
  function HandleKeys(g: GameState, inp: Input): (r: GameState)
    ensures !inp.keyEscape || g.mode == Options ==> r.mode == g.mode && r.pause == (g.pause != inp.keyP)
    ensures inp.keyEscape && g.mode == Game ==> r.mode == Menu && r.pause
    ensures inp.keyEscape && g.mode == Menu ==> r.mode == Game && !r.pause
    ensures r == g.(mode := r.mode, pause := r.pause)
  {
    PressEscape(PressPause(g, inp.keyP), inp.keyEscape)
  }

  /** The part of update() before the pause-gated simulation: P, Escape,
      Space, spawn and difficulty. The pause flag and mode are those of the
      key handling; Space fires through make_bullet, so a shot is appended
      only when unpaused and out of cooldown; the spawn stamp moves to now
      exactly when a spawn was due, and then exactly one asteroid is
      appended; the difficulty rule sets the threshold from the score; the
      score and the player stand. */
  function Prepare(g: GameState, inp: Input): (r: GameState)
    requires ValidDraw(inp.draw)
    ensures r.pause == HandleKeys(g, inp).pause && r.mode == HandleKeys(g, inp).mode && r.soundOn == g.soundOn
    ensures r.lastSpawn == (if inp.now - g.lastSpawn >= g.spawnThreshold then inp.now else g.lastSpawn)
    ensures |r.asteroids| == |g.asteroids| + (if inp.now - g.lastSpawn >= g.spawnThreshold then 1 else 0)
    ensures r.asteroids[..|g.asteroids|] == g.asteroids
    ensures r.score == g.score && r.player == g.player
    ensures r.pause ==> r.bullets == g.bullets
    ensures !inp.keySpace || r.pause || inp.now - g.lastReload < ReloadThreshold ==>
      r.bullets == g.bullets && r.bulletsAvailable == g.bulletsAvailable && r.lastReload == g.lastReload
    ensures inp.keySpace && !r.pause && inp.now - g.lastReload >= ReloadThreshold ==>
      r.bullets == g.bullets + [NewBullet(g.player.position, g.player.rotation - 90.0)]
    ensures r.spawnThreshold ==
      (if g.score % 10 == 0 && g.score != 0 then 0.5 - g.score as real / 200.0 else g.spawnThreshold)
    ensures Inv(g) ==> Inv(r)
  {
    var keyed := HandleKeys(g, inp);
    var shot := if inp.keySpace then MakeBullet(keyed, inp.now) else keyed;
    var spawned := SpawnStep(shot, inp.now, inp.draw);
    Difficulty(spawned)
  }

  /** update(), in its order: P, Escape, Space, spawn, difficulty, the
      pause-gated movement and collisions, then the mouse. The ammo counter
      stays in [1, bullet_max]; no frame leaves the options screen; the
      process exits only from a click on exit in the menu; the score either
      restarts from 0 or does not decrease. */
  function Update(g: GameState, inp: Input, phys: Physics): (r: Frame)
    requires ValidDraw(inp.draw)
    ensures Inv(g) && r.Running? ==> Inv(r.state)
    ensures g.mode == Options ==> r.Running? ==> r.state.mode == Options
    ensures g.mode == Options ==> !r.Exited?
    ensures r.Exited? ==> HandleKeys(g, inp).mode == Menu && inp.click.pressed && inp.click.onExit
    ensures r.UndefinedBehaviour? ==> !HandleKeys(g, inp).pause
    ensures r.Running? ==> r.state.score == 0 || r.state.score >= g.score
    ensures r.Running? ==>
      r.state.lastSpawn == (if inp.now - g.lastSpawn >= g.spawnThreshold then inp.now else g.lastSpawn)
    ensures r.Running? && !inp.keyEscape && !inp.click.pressed ==>
      r.state.pause == (g.pause != inp.keyP) && r.state.mode == g.mode
  {
    match Simulate(Prepare(g, inp), inp.dt, inp.keys, phys)
    case Undefined => UndefinedBehaviour
    case Defined(h) => UpdateUi(h, inp.click)
  }

  /** A frame that is paused after its key handling is never undefined:
      nothing moves, no bullet is fired, nothing is destroyed and the score
      stands; the only change to the field is the new asteroid appended when
      a spawn is due, and the difficulty rule still retunes the threshold:
      both run whatever the pause flag. */
  lemma PausedFrame(g: GameState, inp: Input, phys: Physics)
    requires ValidDraw(inp.draw)
    requires HandleKeys(g, inp).pause
    ensures var r := Update(g, inp, phys);
      && !r.UndefinedBehaviour?
      && (r.Running? ==>
        && r.state.bullets == g.bullets && r.state.player == g.player && r.state.score == g.score
        && |r.state.asteroids| == |g.asteroids| + (if inp.now - g.lastSpawn >= g.spawnThreshold then 1 else 0)
        && r.state.spawnThreshold ==
             (if g.score % 10 == 0 && g.score != 0 then 0.5 - g.score as real / 200.0 else g.spawnThreshold)
        && r.state.asteroids[..|g.asteroids|] == g.asteroids)
  {
  }

  /** With the clock standing still (dt = 0), an unpaused frame with no
      collision, nothing due to spawn or fire, and a score that does not
      retune the spawn threshold (0, or not a multiple of 10) leaves the
      state exactly as it was. */
  lemma StillFrame(g: GameState, inp: Input, phys: Physics)
    requires ValidDraw(inp.draw)
    requires inp.dt == 0.0 && !inp.keyP && !inp.keyEscape && !inp.keySpace && !inp.click.pressed
    requires inp.now - g.lastSpawn < g.spawnThreshold
    requires !(g.score % 10 == 0 && g.score != 0) && !g.pause
    requires g.bullets == [] && !PlayerStruck(g, phys)
    ensures Update(g, inp, phys) == Running(g)
  {
    assert DriftAll(g.asteroids, 0.0, phys) == g.asteroids;
  }
}

=== FILE: collisions.dfy ===
/** The bullet/asteroid phase of Game::update_collisions (game.hpp:155-169),
    walked index by index exactly as the nested iterator loops walk it, and
    the erase-safe pass the loop was evidently meant to be.

    The loops as written: for asteroid index i and bullet index j, a hit
    erases bullet j and asteroid i and leaves both indices where they are, so
    the inner loop goes on testing the NEXT asteroid against the REST of the
    bullets; when the inner loop ends, i is incremented once more. If the
    asteroid erased was the last one, i equals the vector's size: the next
    test dereferences end(), or the increment moves past end(). Both are
    undefined behaviour in C++, and the walk returns Undefined there. */
module Collisions {
  import opened Seqs

  /** The end of a pass: the state it leaves, or undefined behaviour. */
  datatype Outcome<T> = Defined(value: T) | Undefined

  /** What survives a bullet/asteroid pass, and how many hits it scored. */
  datatype Tally<A, B> = Tally(asteroids: seq<A>, bullets: seq<B>, hits: nat)

  /** t is what a pass starting from asteroids, bullets and k hits may leave:
      every hit removed exactly one asteroid and one bullet, and nothing was
      added. */
  ghost predicate Accounted<A, B>(asteroids: seq<A>, bullets: seq<B>, k: nat, t: Tally<A, B>) {
    && |asteroids| - |t.asteroids| == t.hits - k == |bullets| - |t.bullets|
    && multiset(t.asteroids) <= multiset(asteroids)
    && multiset(t.bullets) <= multiset(bullets)
  }

  /** The last element of s survives into t. */
  ghost predicate LastKept<A>(s: seq<A>, t: seq<A>) {
    |s| > 0 ==> |t| > 0 && t[|t| - 1] == s[|s| - 1]
  }

  /** The outer loop's test `it1 != asteroids.end()` with it1 at index i
      (k hits so far). */
  function OuterLoop<A, B>(hits: (A, B) -> bool, asteroids: seq<A>, bullets: seq<B>, i: nat, k: nat)
    : (r: Outcome<Tally<A, B>>)
    requires i <= |asteroids|
    ensures r.Defined? ==> Accounted(asteroids, bullets, k, r.value)
    ensures r.Defined? ==> LastKept(asteroids, r.value.asteroids)
    decreases |asteroids| - i, 1, 0
  {
    if i == |asteroids| then Defined(Tally(asteroids, bullets, k))
    else InnerLoop(hits, asteroids, bullets, i, 0, k)
  }

  /** The inner loop's test `it != bullets.end()` with it1 at index i and it
      at index j. After the last asteroid has been erased, i == |asteroids|. */
  function InnerLoop<A, B>(hits: (A, B) -> bool, asteroids: seq<A>, bullets: seq<B>, i: nat, j: nat, k: nat)
    : (r: Outcome<Tally<A, B>>)
    requires i <= |asteroids| && j <= |bullets|
    ensures r.Defined? ==> i < |asteroids|
    ensures r.Defined? ==> Accounted(asteroids, bullets, k, r.value)
    ensures r.Defined? ==> LastKept(asteroids, r.value.asteroids)
    decreases |asteroids| - i, 0, |bullets| - j
  {
    if j == |bullets| then
      // ++it1 (line 168)
      if i == |asteroids| then Undefined
      else OuterLoop(hits, asteroids, bullets, i + 1, k)
    else if i == |asteroids| then
      // it1->is_colliding(...) on end() (line 157)
      Undefined
    else if hits(asteroids[i], bullets[j]) then
      // erase the bullet, then the asteroid; both iterators stay put
      var r := InnerLoop(hits, RemoveAt(asteroids, i), RemoveAt(bullets, j), i, j, k + 1);
      assert r.Defined? ==> Accounted(asteroids, bullets, k, r.value) && LastKept(asteroids, r.value.asteroids) by {
        if r.Defined? { HitAccounted(asteroids, bullets, i, j, k, r.value); }
      }
      r
    else
      InnerLoop(hits, asteroids, bullets, i, j + 1, k)
  }

  /** What the walk promises after erasing the pair (i, j) it also promises
      before, as long as asteroid i was not the last one. */
  lemma HitAccounted<A, B>(asteroids: seq<A>, bullets: seq<B>, i: nat, j: nat, k: nat, t: Tally<A, B>)
    requires i < |asteroids| - 1 && j < |bullets|
    requires Accounted(RemoveAt(asteroids, i), RemoveAt(bullets, j), k + 1, t)
    requires LastKept(RemoveAt(asteroids, i), t.asteroids)
    ensures Accounted(asteroids, bullets, k, t)
    ensures LastKept(asteroids, t.asteroids)
  {
    var a' := RemoveAt(asteroids, i);
    assert a'[|a'| - 1] == asteroids[|asteroids| - 1];
  }

  /** The whole bullet/asteroid phase as written. When it is defined, each
      hit removed one asteroid and one bullet and scored one point, nothing
      was added, and the last asteroid was never destroyed. */
  function PairPass<A, B>(hits: (A, B) -> bool, asteroids: seq<A>, bullets: seq<B>)
    : (r: Outcome<Tally<A, B>>)
    ensures r.Defined? ==> Accounted(asteroids, bullets, 0, r.value)
    ensures r.Defined? ==> LastKept(asteroids, r.value.asteroids)
  {
    OuterLoop(hits, asteroids, bullets, 0, 0)
  }

  /** No asteroid collides with any bullet. */
  ghost predicate NoHits<A, B>(hits: (A, B) -> bool, asteroids: seq<A>, bullets: seq<B>) {
    forall x, y :: 0 <= x < |asteroids| && 0 <= y < |bullets| ==> !hits(asteroids[x], bullets[y])
  }

  /** Without any colliding pair the walk reaches the end and changes nothing. */
  lemma {:induction false} OuterNoHits<A, B>(hits: (A, B) -> bool, asteroids: seq<A>, bullets: seq<B>, i: nat, k: nat)
    requires i <= |asteroids|
    requires NoHits(hits, asteroids, bullets)
    ensures OuterLoop(hits, asteroids, bullets, i, k) == Defined(Tally(asteroids, bullets, k))
    decreases |asteroids| - i, 1, 0
  {
    if i < |asteroids| {
      InnerNoHits(hits, asteroids, bullets, i, 0, k);
    }
  }

  lemma {:induction false} InnerNoHits<A, B>(hits: (A, B) -> bool, asteroids: seq<A>, bullets: seq<B>, i: nat, j: nat, k: nat)
    requires i < |asteroids| && j <= |bullets|
    requires NoHits(hits, asteroids, bullets)
    ensures InnerLoop(hits, asteroids, bullets, i, j, k) == Defined(Tally(asteroids, bullets, k))
    decreases |asteroids| - i, 0, |bullets| - j
  {
    if j == |bullets| {
      OuterNoHits(hits, asteroids, bullets, i + 1, k);
    } else {
      assert !hits(asteroids[i], bullets[j]);
      InnerNoHits(hits, asteroids, bullets, i, j + 1, k);
    }
  }

  lemma PairPassNoHits<A, B>(hits: (A, B) -> bool, asteroids: seq<A>, bullets: seq<B>)
    requires NoHits(hits, asteroids, bullets)
    ensures PairPass(hits, asteroids, bullets) == Defined(Tally(asteroids, bullets, 0))
  {
    OuterNoHits(hits, asteroids, bullets, 0, 0);
  }

  /** Once the walk stands on the last asteroid, it is undefined exactly when
      that asteroid collides with one of the bullets still ahead of j;
      otherwise the walk ends there with nothing more removed. */
  lemma {:induction false} LastAsteroid<A, B>(hits: (A, B) -> bool, asteroids: seq<A>, bullets: seq<B>, j: nat, k: nat)
    requires |asteroids| > 0 && j <= |bullets|
    ensures var r := InnerLoop(hits, asteroids, bullets, |asteroids| - 1, j, k);
      && (r.Undefined? <==> exists y :: j <= y < |bullets| && hits(asteroids[|asteroids| - 1], bullets[y]))
      && (r.Defined? ==> r.value == Tally(asteroids, bullets, k))
    decreases |bullets| - j
  {
    var i := |asteroids| - 1;
    if j == |bullets| {
      assert OuterLoop(hits, asteroids, bullets, i + 1, k) == Defined(Tally(asteroids, bullets, k));
    } else if hits(asteroids[i], bullets[j]) {
      var rest := RemoveAt(asteroids, i);
      assert InnerLoop(hits, rest, RemoveAt(bullets, j), i, j, k + 1) == Undefined;
    } else {
      LastAsteroid(hits, asteroids, bullets, j + 1, k);
    }
  }

  /** The simplest instance: one asteroid that collides with a bullet. */
  lemma SingleHitIsUndefined<A, B>(hits: (A, B) -> bool, a: A, b: B)
    requires hits(a, b)
    ensures PairPass(hits, [a], [b]) == Undefined
  {
    LastAsteroid(hits, [a], [b], 0, 0);
  }

  /** The pass as written does not remove every colliding pair: asteroid 2
      and bullet 2 collide and both survive, because after asteroid 1 and
      bullet 1 are erased, asteroid 2 only meets the bullets after index 1,
      and the loop's increment then skips it. */
  lemma SkippedPairSurvives()
    ensures PairPass((a: int, b: int) => a == b, [1, 2, 3], [2, 1])
         == Defined(Tally([2, 3], [2], 1))
  {
    var hits := (a: int, b: int) => a == b;
    var rest := RemoveAt([1, 2, 3], 0);
    assert rest == [2, 3];
    assert RemoveAt([2, 1], 1) == [2];
    assert InnerLoop(hits, [2, 3], [2], 1, 1, 1) == Defined(Tally([2, 3], [2], 1));
    assert InnerLoop(hits, [2, 3], [2], 0, 1, 1) == Defined(Tally([2, 3], [2], 1));
    assert InnerLoop(hits, [1, 2, 3], [2, 1], 0, 1, 0) == Defined(Tally([2, 3], [2], 1));
  }

  /** Index of the first bullet a collides with, or |bullets| when none. */
  function FirstHit<A, B>(hits: (A, B) -> bool, a: A, bullets: seq<B>): (j: nat)
    ensures j <= |bullets|
    ensures j < |bullets| ==> hits(a, bullets[j])
    ensures forall y :: 0 <= y < j ==> !hits(a, bullets[y])
    decreases |bullets|
  {
    if |bullets| == 0 then 0
    else if hits(a, bullets[0]) then 0
    else 1 + FirstHit(hits, a, bullets[1..])
  }

  /** The erase-safe pass: each asteroid in turn is tested against the
      bullets still alive; on its first hit both are removed and one point is
      scored, then the next asteroid is tried. It is always defined, and no
      surviving asteroid collides with a surviving bullet. */
  function ResolveHits<A, B>(hits: (A, B) -> bool, asteroids: seq<A>, bullets: seq<B>): (r: Tally<A, B>)
    ensures Accounted(asteroids, bullets, 0, r)
    ensures forall y :: 0 <= y < |r.bullets| ==> r.bullets[y] in bullets
    ensures NoHits(hits, r.asteroids, r.bullets)
    decreases |asteroids|
  {
    if |asteroids| == 0 then Tally([], bullets, 0)
    else
      assert asteroids == [asteroids[0]] + asteroids[1..];
      var j := FirstHit(hits, asteroids[0], bullets);
      if j == |bullets| then
        var t := ResolveHits(hits, asteroids[1..], bullets);
        NoHitsCons(hits, asteroids[0], t.asteroids, t.bullets, bullets);
        Tally([asteroids[0]] + t.asteroids, t.bullets, t.hits)
      else
        var rest := RemoveAt(bullets, j);
        var t := ResolveHits(hits, asteroids[1..], rest);
        assert forall y :: 0 <= y < |rest| ==> rest[y] in bullets by {
          forall y | 0 <= y < |rest| ensures rest[y] in bullets {
            if y < j { assert rest[y] == bullets[y]; } else { assert rest[y] == bullets[y + 1]; }
          }
        }
        Tally(t.asteroids, t.bullets, t.hits + 1)
  }

  /** An asteroid that collides with none of a bullet pool collides with
      none of the bullets drawn from it. */
  lemma NoHitsCons<A, B>(hits: (A, B) -> bool, a: A, asteroids: seq<A>, bullets: seq<B>, pool: seq<B>)
    requires NoHits(hits, asteroids, bullets)
    requires forall y :: 0 <= y < |bullets| ==> bullets[y] in pool
    requires forall y :: 0 <= y < |pool| ==> !hits(a, pool[y])
    ensures NoHits(hits, [a] + asteroids, bullets)
  {
    forall x, y | 0 <= x < |asteroids| + 1 && 0 <= y < |bullets|
      ensures !hits(([a] + asteroids)[x], bullets[y])
    {
      if x == 0 {
        var z :| 0 <= z < |pool| && pool[z] == bullets[y];
      } else {
        assert ([a] + asteroids)[x] == asteroids[x - 1];
      }
    }
  }

  /** On the input that makes the pass as written undefined, the erase-safe
      pass removes both and scores one point. */
  lemma SingleHitIsResolved<A, B>(hits: (A, B) -> bool, a: A, b: B)
    requires hits(a, b)
    ensures ResolveHits(hits, [a], [b]) == Tally([], [], 1)
  {
    assert [a][1..] == [];
    assert RemoveAt([b], 0) == [];
  }
}

=== FILE: entities.dfy ===
/** The entity classes of the refactored game (entity.hpp) reduced to their
    state, together with the foreign geometry they call. Trigonometry,
    normalisation and the circle test have no visible body; they are carried
    in a Physics record and left uninterpreted. */
module Entities {
  import opened Geometry

  /** A MovableEntity: position, size, rotation in degrees and a scalar
      speed. Asteroids and bullets are both of this shape and differ only in
      the constants they are built with and in their collision circle. */
  datatype Body = Body(position: Vec2, size: Vec2, rotation: real, speed: real)

  type Asteroid = Body
  type Bullet = Body

  /** The one Player: its size is always 32x32 and its speeds are fixed, so
      only position and rotation vary. */
  datatype Player = Player(position: Vec2, rotation: real)

  const AsteroidSpeed: real := 100.0
  const BulletSpeed: real := 600.0
  const BulletSize: Vec2 := Vec2(10.0, 5.0)
  const PlayerSize: Vec2 := Vec2(32.0, 32.0)
  const PlayerSpeed: real := 400.0
  /** Entity's default rotation_speed, which Player does not override. */
  const PlayerTurnRate: real := 300.0

  /** The calls into raylib/raymath the entities make.
      heading(rot) is (cos(rot * DEG2RAD), sin(rot * DEG2RAD));
      normalize is Vector2Normalize; circles is CheckCollisionCircles. */
  datatype Physics = Physics(
    heading: real -> Vec2,
    normalize: Vec2 -> Vec2,
    circles: (Circle, Circle) -> bool)

  /** Which arrow keys are held this frame. */
  datatype Steer = Steer(right: bool, left: bool, up: bool, down: bool)

  function NewAsteroid(position: Vec2, size: Vec2, rotation: real): Asteroid {
    Body(position, size, rotation, AsteroidSpeed)
  }

  function NewBullet(position: Vec2, rotation: real): Bullet {
    Body(position, BulletSize, rotation, BulletSpeed)
  }

  /** Straight-line motion along the heading of rotation at the given speed
      for dt seconds; with dt = 0 the point does not move. */
  function Glide(position: Vec2, rotation: real, speed: real, dt: real, phys: Physics): (r: Vec2)
    ensures dt == 0.0 ==> r == position
  {
    Add(position, Scale(phys.heading(rotation), speed * dt))
  }

  /** MovableEntity::update: only the position changes. */
  function Drift(b: Body, dt: real, phys: Physics): (r: Body)
    ensures r.size == b.size && r.rotation == b.rotation && r.speed == b.speed
    ensures dt == 0.0 ==> r == b
  {
    b.(position := Glide(b.position, b.rotation, b.speed, dt, phys))
  }

  /** Every body of a vector updated in place, in order. */
  function DriftAll(bs: seq<Body>, dt: real, phys: Physics): (r: seq<Body>)
    ensures |r| == |bs|
    ensures forall i :: 0 <= i < |r| ==>
      r[i].size == bs[i].size && r[i].rotation == bs[i].rotation && r[i].speed == bs[i].speed
    ensures dt == 0.0 ==> r == bs
  {
    seq(|bs|, i requires 0 <= i < |bs| => Drift(bs[i], dt, phys))
  }

  /** Player::update (and update_player in the prototype, with its own rates):
      the rotation turns at turnRate while right or left is held, then the
      thrust direction is re-derived from the new rotation and the up/down
      keys, normalised and scaled by speed * dt. Nothing carries over from
      the previous frame. */
  function PlayerStep(p: Player, keys: Steer, dt: real, turnRate: real, speed: real, phys: Physics): (r: Player)
    ensures keys.right == keys.left ==> r.rotation == p.rotation
    ensures keys.right && !keys.left ==> r.rotation == p.rotation + turnRate * dt
    ensures keys.left && !keys.right ==> r.rotation == p.rotation - turnRate * dt
    ensures dt == 0.0 ==> r == p
  {
    var turned := if keys.right then p.rotation + turnRate * dt else p.rotation;
    var rotation := if keys.left then turned - turnRate * dt else turned;
    var h := phys.heading(rotation);
    var forward := if keys.up then Vec2(h.y, -h.x) else Vec2(0.0, 0.0);
    var direction := if keys.down then Vec2(forward.x - h.y, forward.y + h.x) else forward;
    Player(Add(p.position, Scale(phys.normalize(direction), speed * dt)), rotation)
  }

  /** An asteroid's collision circle: centred on its visual centre, radius
      size.x / 2.5. */
  function AsteroidCircle(a: Asteroid): Circle {
    Circle(Vec2(a.position.x + a.size.x / 2.0, a.position.y + a.size.y / 2.0), a.size.x / 2.5)
  }

  /** Asteroid::is_colliding against the player: the player is tested like
      any other 32x32 body at its position, so its circle has radius 32 / 2.5. */
  function AsteroidHitsPlayer(phys: Physics, a: Asteroid, p: Player): (r: bool)
    ensures r == AsteroidHitsBullet(phys, a, Body(p.position, PlayerSize, p.rotation, PlayerSpeed))
  {
    phys.circles(AsteroidCircle(a), Circle(p.position, PlayerSize.x / 2.5))
  }

  /** Asteroid::is_colliding against a bullet: the other circle is centred on
      the bullet's position with radius size.x / 2.5. */
  predicate AsteroidHitsBullet(phys: Physics, a: Asteroid, b: Bullet) {
    phys.circles(AsteroidCircle(a), Circle(b.position, b.size.x / 2.5))
  }

  /** The test reads only the other body's position and width: its height,
      rotation and speed play no part. */
  lemma HitUsesPositionAndWidth(phys: Physics, a: Asteroid, b: Body, c: Body)
    requires b.position == c.position && b.size.x == c.size.x
    ensures AsteroidHitsBullet(phys, a, b) == AsteroidHitsBullet(phys, a, c)
  {
  }

  predicate BulletInWindow(b: Bullet) {
    InWindow(b.position)
  }
}

=== FILE: geometry.dfy ===
/** Plane geometry shared by both versions of the game: raylib's Vector2 as
    exact reals, the 800x600 window, and the angle remap applied to every
    freshly spawned asteroid. */
module Geometry {

  /** raylib's Vector2; float rounding is not modelled. */
  datatype Vec2 = Vec2(x: real, y: real)

  /** Vector2Add */
  function Add(a: Vec2, b: Vec2): Vec2 {
    Vec2(a.x + b.x, a.y + b.y)
  }

  /** Vector2Scale */
  function Scale(v: Vec2, k: real): Vec2 {
    Vec2(v.x * k, v.y * k)
  }

  /** A circle as handed to raylib's CheckCollisionCircles. */
  datatype Circle = Circle(center: Vec2, radius: real)

  /** The window size both versions open. */
  const Screen: Vec2 := Vec2(800.0, 600.0)

  /** The out-of-window test: strictly left of, right of, above or below the
      window, so a point on the border is still inside. */
  function OutOfWindow(p: Vec2): (r: bool)
    ensures !r <==> 0.0 <= p.x <= 800.0 && 0.0 <= p.y <= 600.0
  {
    p.x < 0.0 || p.x > Screen.x || p.y < 0.0 || p.y > Screen.y
  }

  predicate InWindow(p: Vec2) {
    !OutOfWindow(p)
  }

  function Min(a: real, b: real): real {
    if a <= b then a else b
  }

  function Max(a: real, b: real): real {
    if a >= b then a else b
  }

  /** The remap of the raw angle returned by Vector2Angle into a rotation in
      degrees: a raw value within [-1, 1] is scaled by 360, anything else
      becomes 360 - 360 * raw clamped into [-360, 360]. */
  function RemapAngle(raw: real): (r: real)
    ensures -360.0 <= r <= 360.0
    ensures -1.0 <= raw <= 1.0 ==> r == raw * 360.0
    ensures raw < -1.0 ==> r == 360.0
    ensures raw > 1.0 ==> r < 0.0
    ensures 1.0 < raw < 2.0 ==> r == 360.0 - raw * 360.0
    ensures raw >= 2.0 ==> r == -360.0
  {
    if raw > 1.0 || raw < -1.0 then Min(Max(360.0 - raw * 360.0, -360.0), 360.0)
    else raw * 360.0
  }
}

=== FILE: prototype.dfy ===
/** The earlier free-function version of the game (main.cpp): the same loop
    over global state, with different rules. Shots are unlimited, spawning
    stops while paused, collisions are resolved even while paused, and
    bullets never destroy asteroids, so the score never moves from 0. */
module Prototype {
  import opened Geometry
  import opened Seqs
  import Entities

  /** struct Asteroid: size is a full 2D extent; speed is always 100. */
  datatype Asteroid = Asteroid(position: Vec2, size: Vec2, rotation: real, speed: real)

  /** struct Bullet: no size; speed is always 600. */
  datatype Bullet = Bullet(position: Vec2, rotation: real, speed: real)

  /** The global variables of main.cpp that the loop reads or writes. */
  datatype World = World(
    score: int,
    pause: bool,
    player: Entities.Player,   // player_position and player_rotation
    asteroids: seq<Asteroid>,
    bullets: seq<Bullet>,
    lastSpawn: real)           // time_since_last_asteroid: the time of the last spawn

  /** asteroid_appear_threshold: never reassigned in this version. */
  const SpawnInterval: real := 0.5
  const PlayerSpeed: real := 400.0
  const PlayerTurnRate: real := 200.0
  const AsteroidSpeed: real := 100.0
  const BulletSpeed: real := 600.0
  const PlayerRadius: real := 16.0

  /** The globals' initial values. */
  function Initial(): (w: World)
    ensures w.score == 0 && !w.pause && w.asteroids == [] && w.bullets == []
    ensures w.player == Entities.Player(Vec2(400.0, 300.0), 0.0) && w.lastSpawn == 0.0
  {
    World(0, false, Entities.Player(Vec2(400.0, 300.0), 0.0), [], [], 0.0)
  }

  /** start_again(): both vectors emptied, score 0, the player back at the
      centre; the player's rotation, the pause flag and the spawn time are
      untouched. */
  function StartAgain(w: World): (r: World)
    ensures r.asteroids == [] && r.bullets == [] && r.score == 0
    ensures r.player.position == Vec2(400.0, 300.0)
    ensures r.player.rotation == w.player.rotation && r.pause == w.pause && r.lastSpawn == w.lastSpawn
  {
    w.(asteroids := [], bullets := [], score := 0, player := w.player.(position := Vec2(400.0, 300.0)))
  }

  /** make_bullet(): unlimited; always exactly one bullet more, at the
      player's position, pointing 90 degrees anticlockwise of the player. */
  function MakeBullet(w: World): (r: World)
    ensures |r.bullets| == |w.bullets| + 1 && r.bullets[..|w.bullets|] == w.bullets
    ensures r.bullets[|w.bullets|].position == w.player.position
    ensures r.bullets[|w.bullets|].rotation == w.player.rotation - 90.0
    ensures r.bullets[|w.bullets|].speed == BulletSpeed
    ensures r == w.(bullets := r.bullets)
  {
    w.(bullets := w.bullets + [Bullet(w.player.position, w.player.rotation - 90.0, BulletSpeed)])
  }

  /** What make_asteroid draws: the size from GetRandomValue(32, 200), the
      spawn point from GetRandomValue on either side, and the raw
      Vector2Angle result towards a random point of the window. */
  datatype SpawnDraw = SpawnDraw(size: int, x: int, y: int, rawAngle: real)

  /** The size is within its bounds, and so is y, whose two ranges
      [-size, 0] and [600, 600 + size] are both ordered. The x ranges are
      [-size, 0] and [800, 600 + size]; the second is reversed for every
      size below 200, so x is left unconstrained. */
  predicate ValidDraw(d: SpawnDraw) {
    && 32 <= d.size <= 200
    && (-d.size <= d.y <= 0 || 600 <= d.y <= 600 + d.size)
  }

  /** make_asteroid(): one asteroid more, of size s x s with s in [32, 200],
      at the drawn point, whose y lies on or beyond the top or bottom edge of
      the window by at most s, heading in [-360, 360] degrees, speed 100. */
  function MakeAsteroid(w: World, d: SpawnDraw): (r: World)
    requires ValidDraw(d)
    ensures |r.asteroids| == |w.asteroids| + 1 && r.asteroids[..|w.asteroids|] == w.asteroids
    ensures var a := r.asteroids[|w.asteroids|];
      && a.position == Vec2(d.x as real, d.y as real)
      && a.size.x == a.size.y && 32.0 <= a.size.x <= 200.0
      && (-a.size.y <= a.position.y <= 0.0 || Screen.y <= a.position.y <= Screen.y + a.size.y)
      && a.rotation == RemapAngle(d.rawAngle)
      && a.speed == AsteroidSpeed
    ensures r == w.(asteroids := r.asteroids)
  {
    var s := d.size as real;
    var a := Asteroid(Vec2(d.x as real, d.y as real), Vec2(s, s), RemapAngle(d.rawAngle), AsteroidSpeed);
    w.(asteroids := w.asteroids + [a])
  }

  /** update_player(): nothing while paused; otherwise the player turns at
      200 degrees per second and thrusts at 400. */
  function UpdatePlayer(w: World, keys: Entities.Steer, dt: real, phys: Entities.Physics): (r: World)
    ensures w.pause ==> r == w
    ensures r == w.(player := r.player)
    ensures dt == 0.0 ==> r == w
    ensures !w.pause && keys.right && !keys.left ==> r.player.rotation == w.player.rotation + PlayerTurnRate * dt
    ensures !w.pause && keys.left && !keys.right ==> r.player.rotation == w.player.rotation - PlayerTurnRate * dt
  {
    if w.pause then w
    else w.(player := Entities.PlayerStep(w.player, keys, dt, PlayerTurnRate, PlayerSpeed, phys))
  }

  function MoveBullet(b: Bullet, dt: real, phys: Entities.Physics): (r: Bullet)
    ensures r.rotation == b.rotation && r.speed == b.speed
    ensures dt == 0.0 ==> r == b
  {
    b.(position := Entities.Glide(b.position, b.rotation, b.speed, dt, phys))
  }

  function MoveAsteroid(a: Asteroid, dt: real, phys: Entities.Physics): (r: Asteroid)
    ensures r.size == a.size && r.rotation == a.rotation && r.speed == a.speed
    ensures dt == 0.0 ==> r == a
  {
    a.(position := Entities.Glide(a.position, a.rotation, a.speed, dt, phys))
  }

  /** update_bullets(): nothing while paused; otherwise fire on Space (always
      accepted), then move every bullet. */
  function UpdateBullets(w: World, space: bool, dt: real, phys: Entities.Physics): (r: World)
    ensures w.pause ==> r == w
    ensures !w.pause ==> |r.bullets| == |w.bullets| + (if space then 1 else 0)
    ensures !w.pause ==> forall i :: 0 <= i < |w.bullets| ==>
      r.bullets[i].rotation == w.bullets[i].rotation && r.bullets[i].speed == w.bullets[i].speed
    ensures !w.pause && space ==>
      r.bullets[|w.bullets|].rotation == w.player.rotation - 90.0 && r.bullets[|w.bullets|].speed == BulletSpeed
    ensures !w.pause && dt == 0.0 ==> r == (if space then MakeBullet(w) else w)
    ensures r == w.(bullets := r.bullets)
  {
    if w.pause then w
    else
      var fired := if space then MakeBullet(w) else w;
      if |fired.bullets| == 0 then fired
      else fired.(bullets := seq(|fired.bullets|, i requires 0 <= i < |fired.bullets| => MoveBullet(fired.bullets[i], dt, phys)))
  }

  /** update_asteroids(): nothing while paused; otherwise one asteroid is
      spawned and the spawn time becomes now once 0.5 seconds have passed
      since the last spawn, and every asteroid moves. */
  function UpdateAsteroids(w: World, now: real, d: SpawnDraw, dt: real, phys: Entities.Physics): (r: World)
    requires ValidDraw(d)
    ensures w.pause ==> r == w
    ensures !w.pause && now - w.lastSpawn >= SpawnInterval ==> |r.asteroids| == |w.asteroids| + 1 && r.lastSpawn == now
    ensures !w.pause && now - w.lastSpawn < SpawnInterval ==> |r.asteroids| == |w.asteroids| && r.lastSpawn == w.lastSpawn
    ensures !w.pause ==> forall i :: 0 <= i < |w.asteroids| ==>
      && r.asteroids[i].size == w.asteroids[i].size && r.asteroids[i].rotation == w.asteroids[i].rotation
      && r.asteroids[i].speed == w.asteroids[i].speed
    ensures !w.pause && now - w.lastSpawn >= SpawnInterval ==>
      && r.asteroids[|w.asteroids|].speed == AsteroidSpeed
      && r.asteroids[|w.asteroids|].rotation == RemapAngle(d.rawAngle)
    ensures !w.pause && dt == 0.0 ==>
      r == (if now - w.lastSpawn >= SpawnInterval then MakeAsteroid(w, d).(lastSpawn := now) else w)
    ensures r == w.(asteroids := r.asteroids, lastSpawn := r.lastSpawn)
  {
    if w.pause then w
    else
      var spawned := if now - w.lastSpawn >= SpawnInterval then MakeAsteroid(w, d).(lastSpawn := now) else w;
      if |spawned.asteroids| == 0 then spawned
      else spawned.(asteroids := seq(|spawned.asteroids|, i requires 0 <= i < |spawned.asteroids| => MoveAsteroid(spawned.asteroids[i], dt, phys)))
  }

  /** This version's player test: a circle of radius size.x / 4 at the
      asteroid's top-left corner against a circle of radius 16 at the player. */
  predicate PlayerStruck(w: World, phys: Entities.Physics) {
    AnyHitsPlayer(w.asteroids, w.player, phys)
  }

  /** This version's test of one asteroid against the player. */
  predicate HitsPlayer(a: Asteroid, p: Entities.Player, phys: Entities.Physics) {
    phys.circles(Circle(a.position, a.size.x / 4.0), Circle(p.position, PlayerRadius))
  }

  /** The loop of update_collisions from index i: it stops at the first
      asteroid on the player, and finds one exactly when some asteroid from
      i on collides with the player. */
  function HitsFrom(asteroids: seq<Asteroid>, p: Entities.Player, phys: Entities.Physics, i: nat): (r: bool)
    requires i <= |asteroids|
    ensures r <==> exists k :: i <= k < |asteroids| && HitsPlayer(asteroids[k], p, phys)
    decreases |asteroids| - i
  {
    if i == |asteroids| then false
    else if HitsPlayer(asteroids[i], p, phys) then true
    else HitsFrom(asteroids, p, phys, i + 1)
  }

  function AnyHitsPlayer(asteroids: seq<Asteroid>, p: Entities.Player, phys: Entities.Physics): (r: bool)
    ensures r <==> exists k :: 0 <= k < |asteroids| && HitsPlayer(asteroids[k], p, phys)
  {
    HitsFrom(asteroids, p, phys, 0)
  }

  predicate BulletInWindow(b: Bullet) {
    InWindow(b.position)
  }

  /** update_collisions(): an asteroid on the player starts the game again
      and ends the pass before any pruning; otherwise, when there are
      bullets, exactly the bullets inside the window survive, in order. There
      is no bullet/asteroid test. */
  function UpdateCollisions(w: World, phys: Entities.Physics): (r: World)
    ensures PlayerStruck(w, phys) ==> r == StartAgain(w)
    ensures !PlayerStruck(w, phys) ==> r == w.(bullets := Keep(w.bullets, BulletInWindow))
    ensures forall b :: b in r.bullets ==> BulletInWindow(b)
    ensures r.score == w.score || r.score == 0
    ensures r.pause == w.pause && r.lastSpawn == w.lastSpawn
  {
    if PlayerStruck(w, phys) then StartAgain(w)
    else if |w.bullets| == 0 then w
    else w.(bullets := Prune(w.bullets, BulletInWindow))
  }

  /** Everything update() reads during one frame. */
  datatype Input = Input(
    now: real,          // GetTime()
    dt: real,           // GetFrameTime()
    keyP: bool,
    keySpace: bool,
    keys: Entities.Steer,
    draw: SpawnDraw)

  /** update(): P, then the player, the bullets, the asteroids, and the
      collisions, which run every frame. Nothing ever adds to the score, so a
      world whose score is 0 keeps it at 0. */
  function Update(w: World, inp: Input, phys: Entities.Physics): (r: World)
    requires ValidDraw(inp.draw)
    ensures r.pause == (w.pause != inp.keyP)
    ensures w.score == 0 ==> r.score == 0
    ensures forall b :: b in r.bullets ==> BulletInWindow(b)
  {
    var toggled := w.(pause := if inp.keyP then !w.pause else w.pause);
    var steered := UpdatePlayer(toggled, inp.keys, inp.dt, phys);
    var fired := UpdateBullets(steered, inp.keySpace, inp.dt, phys);
    var spawned := UpdateAsteroids(fired, inp.now, inp.draw, inp.dt, phys);
    UpdateCollisions(spawned, phys)
  }

  /** While paused, only the collision pass acts: no movement, no shot and
      no spawn, but a hit on the player still starts the game again and
      bullets outside the window are still erased. */
  lemma PausedFrame(w: World, inp: Input, phys: Entities.Physics)
    requires ValidDraw(inp.draw)
    requires w.pause != inp.keyP
    ensures var r := Update(w, inp, phys);
      && r.lastSpawn == w.lastSpawn
      && (PlayerStruck(w, phys) ==> r == StartAgain(w.(pause := true)))
      && (!PlayerStruck(w, phys) ==>
            r == w.(pause := true, bullets := Keep(w.bullets, BulletInWindow)))
  {
    var toggled := w.(pause := true);
    assert toggled == w.(pause := if inp.keyP then !w.pause else w.pause);
    assert UpdatePlayer(toggled, inp.keys, inp.dt, phys) == toggled;
    assert UpdateBullets(toggled, inp.keySpace, inp.dt, phys) == toggled;
    assert UpdateAsteroids(toggled, inp.now, inp.draw, inp.dt, phys) == toggled;
    assert Update(w, inp, phys) == UpdateCollisions(toggled, phys);
    assert PlayerStruck(toggled, phys) == PlayerStruck(w, phys);
  }

  /** Unpaused with a spawn due, the frame appends one asteroid and stamps
      the spawn time; the collision pass then either starts the game again
      or keeps every asteroid. */
  lemma UnpausedSpawn(w: World, inp: Input, phys: Entities.Physics)
    requires ValidDraw(inp.draw)
    requires w.pause == inp.keyP
    requires inp.now - w.lastSpawn >= SpawnInterval
    ensures var r := Update(w, inp, phys);
      && r.lastSpawn == inp.now
      && (r.asteroids == [] || |r.asteroids| == |w.asteroids| + 1)
  {
  }
}

=== FILE: seqs.dfy ===
/** Sequence operations behind the std::vector handling of both versions:
    erase-at-position and the erase-while-iterating loop that prunes bullets,
    with a plain filter as its reference definition. */
module Seqs {

  /** The elements of s that satisfy keep, in their original order. */
  function Keep<T>(s: seq<T>, keep: T -> bool): (r: seq<T>)
    ensures |r| <= |s|
    ensures forall k :: 0 <= k < |r| ==> keep(r[k])
    ensures multiset(r) <= multiset(s)
    decreases |s|
  {
    if |s| == 0 then []
    else
      assert s == [s[0]] + s[1..];
      if keep(s[0]) then [s[0]] + Keep(s[1..], keep) else Keep(s[1..], keep)
  }

  /** Nothing that passes the test is dropped: every such element of s,
      with its multiplicity, is in the filtered sequence. */
  lemma {:induction false} KeepComplete<T>(s: seq<T>, keep: T -> bool, x: T)
    requires keep(x)
    ensures multiset(Keep(s, keep))[x] == multiset(s)[x]
    decreases |s|
  {
    if |s| > 0 {
      assert s == [s[0]] + s[1..];
      KeepComplete(s[1..], keep, x);
    }
  }

  /** vector::erase at position i: the element at i is gone and everything
      after it moves one place to the front. */
  function RemoveAt<T>(s: seq<T>, i: nat): (r: seq<T>)
    requires i < |s|
    ensures |r| == |s| - 1
    ensures forall k :: 0 <= k < i ==> r[k] == s[k]
    ensures forall k :: i <= k < |r| ==> r[k] == s[k + 1]
    ensures multiset(r) + multiset{s[i]} == multiset(s)
  {
    assert s == s[..i] + [s[i]] + s[i + 1..];
    s[..i] + s[i + 1..]
  }

  lemma Associative<T>(a: seq<T>, b: seq<T>, c: seq<T>)
    ensures (a + b) + c == a + (b + c)
  {
  }

  /** Advancing past an element that is kept keeps the walk's promise. */
  lemma AdvanceKeeps<T>(s: seq<T>, keep: T -> bool, i: nat, r: seq<T>)
    requires i < |s| && keep(s[i])
    requires r == s[..i + 1] + Keep(s[i + 1..], keep)
    ensures r == s[..i] + Keep(s[i..], keep)
  {
    var tail := Keep(s[i + 1..], keep);
    calc {
      r;
      s[..i + 1] + tail;
      { assert s[..i + 1] == s[..i] + [s[i]]; }
      (s[..i] + [s[i]]) + tail;
      { Associative(s[..i], [s[i]], tail); }
      s[..i] + ([s[i]] + tail);
      { assert s[i..][0] == s[i] && s[i..][1..] == s[i + 1..]; }
      s[..i] + Keep(s[i..], keep);
    }
  }

  /** Erasing an element that is not kept keeps the walk's promise. */
  lemma EraseKeeps<T>(s: seq<T>, keep: T -> bool, i: nat, r: seq<T>)
    requires i < |s| && !keep(s[i])
    requires r == RemoveAt(s, i)[..i] + Keep(RemoveAt(s, i)[i..], keep)
    ensures r == s[..i] + Keep(s[i..], keep)
  {
    var t := RemoveAt(s, i);
    assert t[..i] == s[..i];
    assert t[i..] == s[i + 1..];
    assert s[i..][0] == s[i] && s[i..][1..] == s[i + 1..];
    assert Keep(s[i..], keep) == Keep(s[i + 1..], keep);
  }

  /** The erase-while-iterating loop, position by position: i is the
      iterator's index; an element failing keep is erased and the iterator
      stays where it is, otherwise it advances. */
  function EraseWalk<T>(s: seq<T>, keep: T -> bool, i: nat): (r: seq<T>)
    requires i <= |s|
    ensures r == s[..i] + Keep(s[i..], keep)
    decreases |s| - i
  {
    if i == |s| then
      assert s[i..] == [];
      s
    else if keep(s[i]) then
      var r := EraseWalk(s, keep, i + 1);
      AdvanceKeeps(s, keep, i, r);
      r
    else
      var r := EraseWalk(RemoveAt(s, i), keep, i);
      EraseKeeps(s, keep, i, r);
      r
  }

  /** The whole pruning loop, from begin() to end(): it keeps exactly the
      elements satisfying keep, in order. */
  function Prune<T>(s: seq<T>, keep: T -> bool): (r: seq<T>)
    ensures r == Keep(s, keep)
  {
    assert s[0..] == s;
    EraseWalk(s, keep, 0)
  }
}
